=== FILE: README.md ===
# wikinotebook note persistence, modelled in Dafny

This project models the persistence layer of the wikinotebook desktop
note-taking application (`wikinotebook/NoteManager.py`). That layer has
three parts:

- a **Note** is a Markdown file with a name, a backing path and the text
  held in memory;
- a **Notebook** is a directory of such files, loaded eagerly into an
  ordered list of notes;
- the **NotebookManager** keeps the list of notebooks and rebuilds it at
  start-up from a persisted registry. The registry is the settings array
  `notebooks` of `(name, storagePath)` records.

The Qt I/O is replaced by values. The filesystem is a `FileSystem` value
holding file contents by path, the set of existing directories, the paths
the system refuses to open for reading, and separately the paths it refuses
to open for writing. Every operation is a pure function from
the old state to the new state plus the value the Python method returns.
The model leaves the order of a directory listing unspecified, so it is an input.
`LoadNotesMetadata` takes the entries the listing returned. `ReadConfig` and
`CreateNewNotebook` take a `Lister`, a function from filesystem and directory
to entries. The ghost predicate `IsNoteListing` states what a faithful
listing reports: every non-hidden `*.md` file of the directory exactly once,
matched without regard to case. Lemmas assume a faithful listing; the
operations do not.

Modules:

- `Results`: `Option` and `Result`.
- `Paths`: `Join`, `Parent` and `Leaf`, the `*.md` pattern,
  `QFileInfo::baseName` and `completeBaseName`.
- `FileSystems`: `QFile` opens for read, write and exclusive create,
  `readMarkdownFile`, `mkpath`, and directory listings.
- `Lookup`: the first-match search behind both name lookups.
- `MarkdownNotes`: `Note` and `Note.save`.
- `NotebookDirectories`: `Notebook`, `loadNotesMetadata`, `notes`, `note`
  and `createNewNote`.
- `NotebookRegistry`: `NotebookManager`, `notebook`, `notebooks`,
  `createNewNotebook`, `readConfig` and `writeConfig`.

The exclusive open at `wikinotebook/NoteManager.py:79` suggests that
`createNewNote` should fail with AlreadyExists on an existing file. The code
ignores that open's result. It then saves empty contents and appends the
note regardless. This model follows the code. Creating an existing name
therefore empties that file and adds a duplicate entry. Later lookups still
return the earlier entry.

`Note.save` returns `False` when the file does not open. On success it
returns `None`, because the method falls off its end. The model keeps that
value as `Option<bool>` and proves it is never `Some(true)`.

## Model

| member | source | states |
|---|---|---|
| Paths.BaseName | wikinotebook/NoteManager.py:57 | A note's name is the longest prefix of its file name that holds no '.': it is a prefix, contains no '.', and is followed by '.' unless it is the whole name |
| Paths.BaseNameOfStem | wikinotebook/NoteManager.py:57 | A name followed by a '.'-led extension reloads as that name if and only if the name holds no '.' |
| Paths.BaseNameDropsAfterFirstDot | wikinotebook/NoteManager.py:57 | The file of a note named "v1.2" reloads under the name "v1" |
| Paths.CompleteBaseNameRoundTrip | wikinotebook/NoteManager.py:57 | Stripping only the last extension (`completeBaseName`) gives back every stem, dots included |
| Paths.SplitJoin | wikinotebook/NoteManager.py:55 | A path built as directory + "/" + entry splits back into that directory and entry when the entry holds no '/' |
| FileSystems.WriteFile | wikinotebook/NoteManager.py:29-37 | A write open succeeds exactly when the path may be written; the file then holds exactly the new text and no other file changes; when the open fails, nothing changes, the target file included |
| FileSystems.OpenNewOnly | wikinotebook/NoteManager.py:78-80 | An exclusive open creates an empty file only when none exists and the path may be written; otherwise nothing changes |
| FileSystems.MakePath | wikinotebook/NoteManager.py:108 | `mkpath` never touches files; it succeeds exactly when none of the requested directory and its parents is a file and each missing one may be created; on success it adds exactly those directories and nothing else; on failure nothing changes |
| FileSystems.ValidPreserved | wikinotebook/NoteManager.py:29-37 | Writing a file, creating one exclusively and `mkpath` keep a well-formed filesystem well-formed: no path is both file and directory, and every file lies in an existing directory |
| FileSystems.NoteListingCount | wikinotebook/NoteManager.py:52 | A faithful listing has exactly one entry per note file of the directory |
| MarkdownNotes.Save | wikinotebook/NoteManager.py:28-39 | `save` never returns True; it returns False exactly when the file cannot be opened, and then nothing changes; otherwise only the backing file changes, to exactly the note's contents |
| MarkdownNotes.SaveThenRead | wikinotebook/NoteManager.py:6-39 | After a save that went through, `readMarkdownFile` returns the saved contents for the note's file (or "" when that file may be written but not read) and reads every other file as before |
| MarkdownNotes.ReadOnlyNoteLoadsButDoesNotSave | wikinotebook/NoteManager.py:9-34 | Read and write permission are separate: a read-only note file loads its text while saving over it returns False and changes nothing |
| Lookup.FirstIndexOf | wikinotebook/NoteManager.py:67-72 | The search stops at the first position holding the key, and misses exactly when the key is absent |
| Lookup.FirstIndexAfterAppend | wikinotebook/NoteManager.py:84 | Appending never moves an existing first match; it adds one only for an absent key |
| NotebookDirectories.OpenNotebook | wikinotebook/NoteManager.py:42-47 | The `Notebook(name, localStoragePath)` constructor keeps its name and path and holds exactly one note per listed entry |
| NotebookDirectories.OpenNotebookNotes | wikinotebook/NoteManager.py:42-60 | The constructor's notes follow listing order: position k holds the note for entry k, named by its base name, backed by dir/entry and holding what `readMarkdownFile` returns |
| NotebookDirectories.LoadNotesMetadata | wikinotebook/NoteManager.py:49-62 | Loading appends one note per listed entry, in listing order, after the notes already held, and leaves those unchanged |
| NotebookDirectories.LoadedNotesDescribeFiles | wikinotebook/NoteManager.py:55-60 | Every loaded note is named by the base name of its file and holds what `readMarkdownFile` returns for it |
| NotebookDirectories.LoadedNotesMatchDirectory | wikinotebook/NoteManager.py:49-62 | Opening a notebook from a faithful listing gives exactly its note files, each once, with base-name names and file contents |
| NotebookDirectories.NoteNamed | wikinotebook/NoteManager.py:67-72 | `note(name)` returns the first note in list order with that name, and raises `KeyError(name)` exactly when no note has it |
| NotebookDirectories.CreateNewNote | wikinotebook/NoteManager.py:74-86 | `createNewNote` appends exactly one note at the end, with the given name, the path dir/name.md and empty contents, and returns it; when the path may be written the file is emptied whether or not it existed, and otherwise nothing changes on disk |
| NotebookDirectories.NoteNamedAfterCreate | wikinotebook/NoteManager.py:74-86 | After `createNewNote(name)`, a name already present still finds its earlier note, a fresh name finds the new note, and other names are unaffected |
| NotebookDirectories.CreateNewNoteOverwritesExisting | wikinotebook/NoteManager.py:78-84 | Creating "a" where "/nb/a.md" holds "hello" empties that file and leaves two notes named "a" |
| NotebookDirectories.CreateNewNoteExclusive | wikinotebook/NoteManager.py:78-80 | With the exclusive open's failure honoured, creation fails with AlreadyExists on an existing file, never changes an existing file, and otherwise agrees with `createNewNote` |
| NotebookDirectories.ExclusiveCreateTwiceFails | wikinotebook/NoteManager.py:78-80 | With the exclusive open honoured, a second creation of the same name fails with AlreadyExists |
| NotebookDirectories.SaveThenReload | wikinotebook/NoteManager.py:28-62 | Saving a note of a directory and reopening the directory finds a note at that path holding the saved contents, or "" when the file may not be read |
| NotebookDirectories.CreateSaveReload | wikinotebook/NoteManager.py:74-86 | Create, edit, save, reopen: the text comes back at the note's path (as "" when the file may not be read), under the original name exactly when that name holds no '.' |
| NotebookDirectories.HiddenNoteNeverListed | wikinotebook/NoteManager.py:52 | A note named "" or ".x" is saved to a hidden file that no listing reports |
| NotebookRegistry.NotebookNamed | wikinotebook/NoteManager.py:97-102 | `notebook(name)` returns the first notebook in list order with that name, and raises `KeyError(name)` exactly when none has it |
| NotebookRegistry.WriteConfig | wikinotebook/NoteManager.py:128-139 | The written registry replaces the old one with exactly one `(name, storagePath)` record per notebook, in list order |
| NotebookRegistry.ReadConfig | wikinotebook/NoteManager.py:116-126 | `readConfig` appends one notebook per record, in array order, each opened on its storage path with notes loaded from disk, after the notebooks already held |
| NotebookRegistry.NewManager | wikinotebook/NoteManager.py:91-95 | A new manager holds exactly one notebook per registry record, in order, each loaded from disk |
| NotebookRegistry.CreateNewNotebook | wikinotebook/NoteManager.py:107-114 | `createNewNotebook` appends one notebook with the given name and path, holding the notes loaded from that directory after `mkpath`, writes a registry equal to the old records plus that one (so its length equals the notebook count), and changes no file |
| NotebookRegistry.CreateNewNotebookMakesDirectory | wikinotebook/NoteManager.py:107-108 | After `createNewNotebook(name, storagePath)`, the directory `storagePath` exists whenever its missing directories may be created and none of them is a file |
| NotebookRegistry.ReadThenWrite | wikinotebook/NoteManager.py:116-139 | Reading a registry into a fresh manager and writing it back gives the same registry |
| NotebookRegistry.WriteThenRestart | wikinotebook/NoteManager.py:116-139 | Writing the registry and starting a fresh manager recovers every notebook's name and path in order, with notes reloaded from disk |
| NotebookRegistry.NotebookNamedAfterCreate | wikinotebook/NoteManager.py:97-114 | After `createNewNotebook(name, …)`, a name already present still finds its earlier notebook, a fresh name finds the new one, and other names are unaffected |
| NotebookRegistry.CreateNotebookInEmptyDirectory | wikinotebook/NoteManager.py:107-114 | A notebook created on a directory with no note files has no notes; on an empty manager the registry then holds just its record |

## Left out

- Qt text-mode I/O: `QFile`/`QTextStream` newline translation and text encoding are not modelled. Contents are plain strings.
- `QSettings`: the backing format, `sync()`, and a missing `name` or `storagePath` value (which Python reads as `None`) are not modelled. The `geometry` and `fontSize` keys belong to the window.
- Well-formedness: the operations and lemmas are stated for every `FileSystem` value, including ones where a path is both file and directory. `FileSystems.Valid` names the well-formed states, and `ValidPreserved` shows the writing operations keep them.
- Path handling: paths are taken as absolute and clean. `absoluteFilePath()` canonicalisation, relative paths, trailing slashes, `..` and symbolic links are not modelled.
- Hidden files follow the Unix rule (a leading '.'); platform hidden attributes are not modelled.
- Listing order is left unspecified. It is an input, so no lemma depends on it.
- FileSystems.MakePath: a failing `mkpath` here creates nothing. Qt may keep the directories it made before the failure.
- Object identity: Python shares `Note` and `Notebook` objects between the manager and the window, so `createNewNote` on a notebook the manager returned also grows the manager's copy. The model returns new values instead: a `CreateNewNote` result is not carried back into the `Manager`, so the manager's copy of the notebook does not grow unless the caller puts the new value back.
- Editing a note's contents is done by the window (`MainWindow.saveNote`). `Save` takes the note value with its current contents.
- Console `print` logging is left out.
- `notes()` and `notebooks()` are modelled as `Notes` and `Notebooks`, the plain accessors the lookups scan. They have no contract of their own.
- `readMarkdownFile` is modelled by `ReadMarkdownFile`, a total function with no contract of its own. Its behaviour is stated by `SaveThenRead`, `SaveThenReload` and `LoadedNotesDescribeFiles`.
- A crash in the middle of a write is not modelled. Each write is atomic here.
- `MainWindow.py`, `MarkdownRenderer.py` and `run.py` are window, preview and start-up code, with nothing to model.

## Findings

| source | as written | input that shows it | evidently intended | confidence | as-written member | corrected member |
|---|---|---|---|---|---|---|
| wikinotebook/NoteManager.py:78-84 | The failure of the exclusive (`NewOnly`) open is ignored. An empty save and an append follow regardless. | Notebook "/nb" whose file "/nb/a.md" holds "hello"; call `createNewNote("a")`. The file is emptied and a second note "a" is appended. | Stop with AlreadyExists and change nothing, as the exclusive open suggests | high that the code behaves so; medium on intent; not executed | NotebookDirectories.CreateNewNoteOverwritesExisting | NotebookDirectories.CreateNewNoteExclusive |
| wikinotebook/NoteManager.py:57 | The note name is `baseName()`: the file name up to its first '.' | `createNewNote("v1.2")` writes "v1.2.md". After a restart that note is named "v1". | `completeBaseName()`: strip only the ".md" extension, so every name round-trips | medium; not executed | Paths.BaseNameDropsAfterFirstDot | Paths.CompleteBaseNameRoundTrip |

The operations in the Model table keep the behaviour as written. The
corrected definitions sit beside them, each with its intended property
proved.

=== FILE: filesystem.dfy ===
/** The filesystem as the note layer sees it through `QFile` and `QDir`:
    file contents by path, the set of existing directories, and the paths the
    operating system refuses to open for reading and, separately, for
    writing. Text-mode newline and encoding
    conversion are not modelled; contents are plain strings. */
module FileSystems {
  import opened Results
  import opened Paths

  datatype FileSystem = FileSystem(
    files: map<Path, string>,
    dirs: set<Path>,
    unreadable: set<Path>,
    unwritable: set<Path>)

  /** The states a real filesystem can be in: no path is both a file and a
      directory, and every file sits in an existing directory. The
      operations below are defined, and the lemmas stated, for all states;
      `ValidPreserved` shows that the writing operations keep this one. */
  ghost predicate Valid(fs: FileSystem)
  {
    && (forall p :: p in fs.files ==> p !in fs.dirs)
    && (forall p :: p in fs.files ==> match Parent(p)
                                       case Some(d) => d in fs.dirs
                                       case None => true)
  }

  /** The outcome of a filesystem call whose success flag the caller may
      ignore. */
  datatype FsStep = FsStep(fs: FileSystem, ok: bool)

  /** `QFile::open(ReadOnly | Text)` succeeds: the file exists and may be
      read. */
  predicate CanOpenRead(fs: FileSystem, p: Path)
  {
    p in fs.files && p !in fs.unreadable
  }

  /** `QFile::open(WriteOnly | Text)` succeeds: the path is not a directory,
      may be written (whether or not it may be read), and its directory exists. A path without '/' is
      relative to the working directory, which exists. */
  predicate CanOpenWrite(fs: FileSystem, p: Path)
  {
    && p !in fs.dirs
    && p !in fs.unwritable
    && match Parent(p)
       case Some(d) => d in fs.dirs
       case None => true
  }

  /** `readMarkdownFile`: the whole file when it opens, otherwise the empty
      string; it never raises. */
  function ReadMarkdownFile(fs: FileSystem, fileName: Path): string
  {
    if CanOpenRead(fs, fileName) then fs.files[fileName] else ""
  }

  /** `QFile::open(WriteOnly | Text)` followed by writing `contents`: the
      file is truncated and then holds exactly `contents`. */
  function WriteFile(fs: FileSystem, p: Path, contents: string): (r: FsStep)
    ensures r.ok <==> CanOpenWrite(fs, p)
    ensures r.fs.dirs == fs.dirs && r.fs.unreadable == fs.unreadable && r.fs.unwritable == fs.unwritable
    ensures r.ok ==> p in r.fs.files && r.fs.files[p] == contents
    ensures r.fs.files.Keys == if r.ok then fs.files.Keys + {p} else fs.files.Keys
    ensures forall q :: q in fs.files && q != p ==> r.fs.files[q] == fs.files[q]
    ensures !r.ok ==> r.fs == fs
  {
    if CanOpenWrite(fs, p) then FsStep(fs.(files := fs.files[p := contents]), true)
    else FsStep(fs, false)
  }

  /** `QFile::open(NewOnly | Text)`: creates an empty file, and fails when
      the file already exists or cannot be written. */
  function OpenNewOnly(fs: FileSystem, p: Path): (r: FsStep)
    ensures r.ok <==> p !in fs.files && CanOpenWrite(fs, p)
    ensures r.ok ==> r.fs.files == fs.files[p := ""]
    ensures !r.ok ==> r.fs == fs
    ensures r.fs.dirs == fs.dirs && r.fs.unreadable == fs.unreadable && r.fs.unwritable == fs.unwritable
  {
    if p !in fs.files && CanOpenWrite(fs, p) then WriteFile(fs, p, "")
    else FsStep(fs, false)
  }

  /** `QDir(p).mkpath(".")`: creates `p` and every missing parent. It fails,
      creating nothing, when some directory on the way is an existing file
      or a missing directory the system refuses to create. */
  function MakePath(fs: FileSystem, p: Path): (r: FsStep)
    ensures r.fs.files == fs.files && r.fs.unreadable == fs.unreadable && r.fs.unwritable == fs.unwritable
    ensures fs.dirs <= r.fs.dirs
    ensures r.ok && |p| > 0 ==> p in r.fs.dirs
    ensures r.ok ==> r.fs.dirs == fs.dirs + DirChain(p)
    ensures !r.ok ==> r.fs == fs
    ensures DirChain(p) <= fs.dirs && (forall q :: q in DirChain(p) ==> q !in fs.files) ==> r.ok
    ensures r.ok <==> forall q :: q in DirChain(p) ==> q !in fs.files && (q in fs.dirs || q !in fs.unwritable)
  {
    var chain := DirChain(p);
    if forall q :: q in chain ==> q !in fs.files && (q in fs.dirs || q !in fs.unwritable)
    then FsStep(fs.(dirs := fs.dirs + chain), true)
    else FsStep(fs, false)
  }

  /** `mkpath` is idempotent: a second call succeeds and changes nothing. */
  lemma MakePathIdempotent(fs: FileSystem, p: Path)
    requires MakePath(fs, p).ok
    ensures MakePath(MakePath(fs, p).fs, p) == MakePath(fs, p)
  {
  }

  /** Writing a file, creating one exclusively and `mkpath` keep a valid
      filesystem valid. */
  lemma ValidPreserved(fs: FileSystem, p: Path, contents: string)
    requires Valid(fs)
    ensures Valid(WriteFile(fs, p, contents).fs)
    ensures Valid(OpenNewOnly(fs, p).fs)
    ensures Valid(MakePath(fs, p).fs)
  {
  }

  /** The paths of the note files directly inside `dir`. */
  ghost function NoteFilesIn(fs: FileSystem, dir: Path): set<Path>
  {
    set p | p in fs.files && Parent(p) == Some(dir) && IsNoteFileName(Leaf(p))
  }

  /** What `QDir(dir).entryInfoList(["*.md"], Files | NoDotAndDotDot)`
      reports, in some platform order: each note file of `dir` exactly once,
      by entry name. */
  ghost predicate IsNoteListing(fs: FileSystem, dir: Path, entries: seq<string>)
  {
    && (forall i, j :: 0 <= i < j < |entries| ==> entries[i] != entries[j])
    && (forall k :: 0 <= k < |entries| ==> IsNoteFileName(entries[k]))
    && (set k | 0 <= k < |entries| :: Join(dir, entries[k])) == NoteFilesIn(fs, dir)
  }

  /** Distinct entry names join to distinct paths, one per entry. */
  lemma {:induction false} JoinedCount(dir: Path, entries: seq<string>)
    requires forall i, j :: 0 <= i < j < |entries| ==> entries[i] != entries[j]
    ensures |set k | 0 <= k < |entries| :: Join(dir, entries[k])| == |entries|
  {
    var all := set k | 0 <= k < |entries| :: Join(dir, entries[k]);
    if |entries| == 0 {
      assert all == {};
    } else {
      var rest := entries[1..];
      JoinedCount(dir, rest);
      var later := set k | 0 <= k < |rest| :: Join(dir, rest[k]);
      forall p | p in all
        ensures p in later + {Join(dir, entries[0])}
      {
        var k :| 0 <= k < |entries| && p == Join(dir, entries[k]);
        if k > 0 {
          assert p == Join(dir, rest[k - 1]);
        }
      }
      forall p | p in later
        ensures p in all
      {
        var k :| 0 <= k < |rest| && p == Join(dir, rest[k]);
        assert p == Join(dir, entries[k + 1]);
      }
      assert all == later + {Join(dir, entries[0])};
      forall k | 0 <= k < |rest|
        ensures Join(dir, rest[k]) != Join(dir, entries[0])
      {
        assert rest[k] == entries[k + 1];
        if Join(dir, rest[k]) == Join(dir, entries[0]) {
          JoinInjective(dir, rest[k], entries[0]);
        }
      }
      assert Join(dir, entries[0]) !in later;
    }
  }

  /** A faithful listing has exactly one entry per note file. */
  lemma NoteListingCount(fs: FileSystem, dir: Path, entries: seq<string>)
    requires IsNoteListing(fs, dir, entries)
    ensures |entries| == |NoteFilesIn(fs, dir)|
  {
    JoinedCount(dir, entries);
  }
}

=== FILE: lookup.dfy ===
/** The linear first-match search behind `Notebook.note` and
    `NotebookManager.notebook`. */
module Lookup {
  import opened Results

  /** What both lookups raise on a miss: `KeyError(name)`. */
  datatype LookupError = KeyError(key: string)

  /** The key of each element of `s`, position by position. */
  function KeysOf<T>(s: seq<T>, key: T -> string): (r: seq<string>)
    ensures |r| == |s|
    ensures forall i :: 0 <= i < |s| ==> r[i] == key(s[i])
  {
    seq(|s|, i requires 0 <= i < |s| => key(s[i]))
  }

  /** `i` is the position a front-to-back scan for `key` stops at. */
  predicate IsFirstIndex<K(==)>(keys: seq<K>, i: int, key: K)
  {
    && 0 <= i < |keys|
    && keys[i] == key
    && forall j :: 0 <= j < i ==> keys[j] != key
  }

  /** The position of the first element equal to `key`, none on a miss. */
  function FirstIndexOf<K(==)>(keys: seq<K>, key: K): (r: Option<nat>)
    ensures r.Some? ==> IsFirstIndex(keys, r.value, key)
    ensures r.None? <==> key !in keys
  {
    if |keys| == 0 then None
    else if keys[0] == key then Some(0)
    else
      match FirstIndexOf(keys[1..], key)
      case None => None
      case Some(i) => Some(i + 1)
  }

  /** At most one position is the first match. */
  lemma FirstIndexUnique<K>(keys: seq<K>, i: int, j: int, key: K)
    requires IsFirstIndex(keys, i, key) && IsFirstIndex(keys, j, key)
    ensures i == j
  {
  }

  /** Appending an element never moves an existing first match; it only adds
      one when the key was absent. */
  lemma {:induction false} FirstIndexAfterAppend<K>(keys: seq<K>, last: K, key: K)
    ensures FirstIndexOf(keys + [last], key) ==
      if key in keys then FirstIndexOf(keys, key)
      else if last == key then Some(|keys|)
      else None
  {
    var longer := keys + [last];
    var r := FirstIndexOf(longer, key);
    if key in keys {
      var i := FirstIndexOf(keys, key).value;
      assert IsFirstIndex(longer, i, key);
      FirstIndexUnique(longer, r.value, i, key);
    } else if last == key {
      assert IsFirstIndex(longer, |keys|, key);
      FirstIndexUnique(longer, r.value, |keys|, key);
    } else {
      assert key !in longer;
    }
  }
}

=== FILE: manager.dfy ===
/** `NotebookManager`: the list of notebooks and the persisted registry of
    `(name, storagePath)` pairs it is rebuilt from at start-up. */
module NotebookRegistry {
  import opened Results
  import opened Paths
  import opened FileSystems
  import opened Lookup
  import opened NotebookDirectories

  /** One element of the settings array `notebooks`. */
  datatype Entry = Entry(name: string, storagePath: Path)

  /** The settings array `notebooks`, in array-index order. */
  type Registry = seq<Entry>

  datatype Manager = Manager(allNotebooks: seq<Notebook>)

  /** The platform's directory listing: the entries it reports for a
      directory of a given filesystem, in its own order. */
  type Lister = (FileSystem, Path) -> seq<string>

  /** A listing that reports every directory faithfully. */
  ghost predicate FaithfulLister(lister: Lister)
  {
    forall fs, dir :: IsNoteListing(fs, dir, lister(fs, dir))
  }

  /** `NotebookManager.notebooks`: the notebooks in insertion order. */
  function Notebooks(m: Manager): seq<Notebook>
  {
    m.allNotebooks
  }

  /** The registry record a notebook is written back as. */
  function EntryOf(nb: Notebook): Entry
  {
    Entry(nb.name, nb.localStoragePath)
  }

  /** The names of `notebooks`, position by position. */
  function NotebookNames(notebooks: seq<Notebook>): seq<string>
  {
    KeysOf(notebooks, (nb: Notebook) => nb.name)
  }

  /** `NotebookManager.notebook`: the first notebook, in list order, with the
      given name; `KeyError(name)` when there is none. */
  function NotebookNamed(m: Manager, name: string): (r: Result<Notebook, LookupError>)
    ensures r.Err? <==> forall i :: 0 <= i < |Notebooks(m)| ==> Notebooks(m)[i].name != name
    ensures r.Err? ==> r.error == KeyError(name)
    ensures r.Ok? ==> exists i :: IsFirstIndex(NotebookNames(Notebooks(m)), i, name) && Notebooks(m)[i] == r.value
  {
    var notebooks := Notebooks(m);
    match FirstIndexOf(NotebookNames(notebooks), name)
    case Some(i) => Ok(notebooks[i])
    case None => Err(KeyError(name))
  }

  /** `NotebookManager.writeConfig`: the registry that replaces whatever was
      stored before, one record per notebook, in list order. */
  function WriteConfig(m: Manager): (r: Registry)
    ensures |r| == |m.allNotebooks|
    ensures forall i :: 0 <= i < |r| ==> r[i] == EntryOf(m.allNotebooks[i])
  {
    seq(|m.allNotebooks|, i requires 0 <= i < |m.allNotebooks| => EntryOf(m.allNotebooks[i]))
  }

  /** `NotebookManager.readConfig`: one notebook per registry record, opened
      from disk and appended, in array order, after the notebooks already
      held. */
  function ReadConfig(m: Manager, reg: Registry, fs: FileSystem, lister: Lister): (r: Manager)
    ensures |r.allNotebooks| == |m.allNotebooks| + |reg|
    ensures r.allNotebooks[..|m.allNotebooks|] == m.allNotebooks
    ensures forall k :: 0 <= k < |reg| ==>
      r.allNotebooks[|m.allNotebooks| + k] ==
        OpenNotebook(reg[k].name, reg[k].storagePath, fs, lister(fs, reg[k].storagePath))
    decreases |reg|
  {
    if |reg| == 0 then m
    else
      var before := ReadConfig(m, reg[..|reg| - 1], fs, lister);
      var e := reg[|reg| - 1];
      Manager(before.allNotebooks + [OpenNotebook(e.name, e.storagePath, fs, lister(fs, e.storagePath))])
  }

  /** The `NotebookManager()` constructor: an empty manager that reads the
      registry. */
  function NewManager(reg: Registry, fs: FileSystem, lister: Lister): (r: Manager)
    ensures |Notebooks(r)| == |reg|
    ensures forall k :: 0 <= k < |reg| ==>
      Notebooks(r)[k] == OpenNotebook(reg[k].name, reg[k].storagePath, fs, lister(fs, reg[k].storagePath))
  {
    ReadConfig(Manager([]), reg, fs, lister)
  }

  /** What `createNewNotebook` leaves behind: the grown manager, the registry
      it wrote, the filesystem, and the notebook it returned. */
  datatype NotebookCreation = NotebookCreation(manager: Manager, registry: Registry, fs: FileSystem, notebook: Notebook)

  /** `NotebookManager.createNewNotebook`: make the directory (ignoring
      whether that worked), open a notebook on it, append it, and write the
      whole registry back. */
  function CreateNewNotebook(m: Manager, fs: FileSystem, lister: Lister, name: string, storagePath: Path): (r: NotebookCreation)
    ensures r.manager.allNotebooks == m.allNotebooks + [r.notebook]
    ensures r.notebook.name == name && r.notebook.localStoragePath == storagePath
    ensures r.registry == WriteConfig(m) + [Entry(name, storagePath)]
    ensures |r.registry| == |Notebooks(r.manager)|
    ensures r.fs.files == fs.files && fs.dirs <= r.fs.dirs
    ensures r.fs == MakePath(fs, storagePath).fs
    ensures r.notebook == OpenNotebook(name, storagePath, r.fs, lister(r.fs, storagePath))
  {
    var made := MakePath(fs, storagePath);
    var nb := OpenNotebook(name, storagePath, made.fs, lister(made.fs, storagePath));
    var grown := Manager(m.allNotebooks + [nb]);
    NotebookCreation(grown, WriteConfig(grown), made.fs, nb)
  }

  /** Reading a registry into a fresh manager and writing it back gives the
      same registry. */
  lemma {:induction false} ReadThenWrite(reg: Registry, fs: FileSystem, lister: Lister)
    ensures WriteConfig(NewManager(reg, fs, lister)) == reg
  {
  }

  /** A restart: writing the registry and building a fresh manager from it
      recovers every notebook's name and directory, in order, with its notes
      reloaded from disk. */
  lemma {:induction false} WriteThenRestart(m: Manager, fs: FileSystem, lister: Lister)
    ensures var restarted := NewManager(WriteConfig(m), fs, lister);
      && WriteConfig(restarted) == WriteConfig(m)
      && |Notebooks(restarted)| == |Notebooks(m)|
      && forall i :: 0 <= i < |Notebooks(m)| ==>
           var nb := Notebooks(m)[i];
           Notebooks(restarted)[i] == OpenNotebook(nb.name, nb.localStoragePath, fs, lister(fs, nb.localStoragePath))
  {
    var reg := WriteConfig(m);
    ReadThenWrite(reg, fs, lister);
    forall i | 0 <= i < |Notebooks(m)|
      ensures reg[i].name == Notebooks(m)[i].name && reg[i].storagePath == Notebooks(m)[i].localStoragePath
    {
      assert reg[i] == EntryOf(m.allNotebooks[i]);
    }
  }

  /** Lookup after `createNewNotebook(name, …)`: a name already present still
      finds its earlier notebook; a fresh name finds the new one; every other
      name is unaffected. */
  lemma {:induction false} NotebookNamedAfterCreate(m: Manager, fs: FileSystem, lister: Lister, name: string, storagePath: Path, key: string)
    ensures var r := CreateNewNotebook(m, fs, lister, name, storagePath);
      NotebookNamed(r.manager, key) ==
        if key in NotebookNames(Notebooks(m)) then NotebookNamed(m, key)
        else if key == name then Ok(r.notebook)
        else Err(KeyError(key))
  {
    var r := CreateNewNotebook(m, fs, lister, name, storagePath);
    assert NotebookNames(Notebooks(r.manager)) == NotebookNames(Notebooks(m)) + [name];
    FirstIndexAfterAppend(NotebookNames(Notebooks(m)), name, key);
  }

  /** A new notebook on a directory holding no note files starts with no
      notes; on an empty manager the registry then holds just its record. */
  lemma {:induction false} CreateNotebookInEmptyDirectory(m: Manager, fs: FileSystem, lister: Lister, name: string, storagePath: Path)
    requires FaithfulLister(lister)
    requires NoteFilesIn(fs, storagePath) == {}
    ensures var r := CreateNewNotebook(m, fs, lister, name, storagePath);
      && Notes(r.notebook) == []
      && (m.allNotebooks == [] ==> r.registry == [Entry(name, storagePath)])
  {
    var made := MakePath(fs, storagePath).fs;
    var entries := lister(made, storagePath);
    assert IsNoteListing(made, storagePath, entries);
    assert NoteFilesIn(made, storagePath) == NoteFilesIn(fs, storagePath);
    NoteListingCount(made, storagePath, entries);
  }

  /** `createNewNotebook` leaves its directory in place: when every missing
      directory on the way to `storagePath` may be created and none of them
      is a file, `storagePath` exists as a directory afterwards. */
  lemma CreateNewNotebookMakesDirectory(m: Manager, fs: FileSystem, lister: Lister, name: string, storagePath: Path)
    requires |storagePath| > 0
    requires forall q :: q in DirChain(storagePath) ==> q !in fs.files && (q in fs.dirs || q !in fs.unwritable)
    ensures storagePath in CreateNewNotebook(m, fs, lister, name, storagePath).fs.dirs
  {
  }
}

=== FILE: note.dfy ===
/** A single Markdown note and its `save` operation. */
module MarkdownNotes {
  import opened Results
  import opened Paths
  import opened FileSystems

  /** A note: its display name, the file it is saved to, and the text held
      in memory. */
  datatype Note = Note(name: string, backingStoragePath: Path, contents: string)

  /** What `save` leaves behind: the filesystem, and the Python value it
      returns. That value is `False` when the file does not open; on success
      the method falls off its end and returns `None`, so no run ever
      returns `True`. */
  datatype SaveOutcome = SaveOutcome(fs: FileSystem, returned: Option<bool>)

  /** `Note.save`: overwrite the backing file with the note's contents. */
  function Save(note: Note, fs: FileSystem): (r: SaveOutcome)
    ensures r.returned != Some(true)
    ensures r.returned == Some(false) <==> !CanOpenWrite(fs, note.backingStoragePath)
    ensures r.returned.None? ==> r.fs.files == fs.files[note.backingStoragePath := note.contents]
    ensures r.returned.Some? ==> r.fs == fs
    ensures r.fs.dirs == fs.dirs && r.fs.unreadable == fs.unreadable && r.fs.unwritable == fs.unwritable
  {
    var written := WriteFile(fs, note.backingStoragePath, note.contents);
    if written.ok then SaveOutcome(written.fs, None)
    else SaveOutcome(fs, Some(false))
  }

  /** After a save that went through, reading the backing file gives back
      exactly the saved contents unless the file may not be read (a
      write-only file reads as ""), and every other file reads as before. */
  lemma SaveThenRead(note: Note, fs: FileSystem, other: Path)
    requires Save(note, fs).returned.None?
    ensures ReadMarkdownFile(Save(note, fs).fs, note.backingStoragePath) ==
      if note.backingStoragePath in fs.unreadable then "" else note.contents
    ensures other != note.backingStoragePath ==>
      ReadMarkdownFile(Save(note, fs).fs, other) == ReadMarkdownFile(fs, other)
  {
  }

  /** Read and write permission are separate: a read-only note file loads
      its text, while saving over it fails and changes nothing. */
  lemma ReadOnlyNoteLoadsButDoesNotSave()
    ensures var fs := FileSystem(map["/nb/a.md" := "hello"], {"/nb"}, {}, {"/nb/a.md"});
      && ReadMarkdownFile(fs, "/nb/a.md") == "hello"
      && Save(Note("a", "/nb/a.md", "edited"), fs) == SaveOutcome(fs, Some(false))
  {
  }
}

=== FILE: notebook.dfy ===
/** A notebook: a directory of Markdown files loaded eagerly into an ordered
    list of notes. */
module NotebookDirectories {
  import opened Results
  import opened Paths
  import opened FileSystems
  import opened Lookup
  import opened MarkdownNotes

  datatype Notebook = Notebook(name: string, localStoragePath: Path, allNotes: seq<Note>)

  /** The note built for one listed entry of directory `dir`: named by the
      entry's base name, backed by the entry's path, holding what
      `readMarkdownFile` returns for it. */
  function NoteFromEntry(fs: FileSystem, dir: Path, entry: string): Note
  {
    var path := Join(dir, entry);
    Note(BaseName(entry), path, ReadMarkdownFile(fs, path))
  }

  /** `Notebook.loadNotesMetadata`: one note per listed entry, appended in
      listing order after the notes already held. `entries` is what the
      directory listing returned; its order is the platform's. */
  function LoadNotesMetadata(nb: Notebook, fs: FileSystem, entries: seq<string>): (r: Notebook)
    ensures r.name == nb.name && r.localStoragePath == nb.localStoragePath
    ensures |r.allNotes| == |nb.allNotes| + |entries|
    ensures r.allNotes[..|nb.allNotes|] == nb.allNotes
    ensures forall k :: 0 <= k < |entries| ==>
      r.allNotes[|nb.allNotes| + k] == NoteFromEntry(fs, nb.localStoragePath, entries[k])
    decreases |entries|
  {
    if |entries| == 0 then nb
    else
      var before := LoadNotesMetadata(nb, fs, entries[..|entries| - 1]);
      var last := NoteFromEntry(fs, nb.localStoragePath, entries[|entries| - 1]);
      before.(allNotes := before.allNotes + [last])
  }

  /** The `Notebook(name, localStoragePath)` constructor: an empty notebook
      that immediately loads its directory. */
  function OpenNotebook(name: string, localStoragePath: Path, fs: FileSystem, entries: seq<string>): (r: Notebook)
    ensures r.name == name && r.localStoragePath == localStoragePath
    ensures |r.allNotes| == |entries|
  {
    LoadNotesMetadata(Notebook(name, localStoragePath, []), fs, entries)
  }

  /** A freshly opened notebook holds, at each position, the note built
      from the listed entry at that position. */
  lemma OpenNotebookNotes(name: string, localStoragePath: Path, fs: FileSystem, entries: seq<string>)
    ensures forall k :: 0 <= k < |entries| ==>
      OpenNotebook(name, localStoragePath, fs, entries).allNotes[k] == NoteFromEntry(fs, localStoragePath, entries[k])
  {
  }

  /** `Notebook.notes`: the notes in insertion order. */
  function Notes(nb: Notebook): seq<Note>
  {
    nb.allNotes
  }

  /** The names of `notes`, position by position. */
  function NoteNames(notes: seq<Note>): seq<string>
  {
    KeysOf(notes, (n: Note) => n.name)
  }

  /** `Notebook.note`: the first note, in list order, with the given name;
      `KeyError(name)` when there is none. */
  function NoteNamed(nb: Notebook, name: string): (r: Result<Note, LookupError>)
    ensures r.Err? <==> forall i :: 0 <= i < |Notes(nb)| ==> Notes(nb)[i].name != name
    ensures r.Err? ==> r.error == KeyError(name)
    ensures r.Ok? ==> exists i :: IsFirstIndex(NoteNames(Notes(nb)), i, name) && Notes(nb)[i] == r.value
  {
    var notes := Notes(nb);
    match FirstIndexOf(NoteNames(notes), name)
    case Some(i) => Ok(notes[i])
    case None => Err(KeyError(name))
  }

  /** The file `createNewNote(name)` writes. */
  function NotePath(nb: Notebook, name: string): Path
  {
    Join(nb.localStoragePath, name + MarkdownSuffix)
  }

  /** What `createNewNote` leaves behind: the grown notebook, the
      filesystem, and the note it returned. */
  datatype NoteCreation = NoteCreation(notebook: Notebook, fs: FileSystem, note: Note)

  /** `Notebook.createNewNote`, as written: the exclusive open's result is
      ignored, an empty save follows regardless, and the note is appended
      whether or not a note of that name already existed. */
  function CreateNewNote(nb: Notebook, fs: FileSystem, name: string): (r: NoteCreation)
    ensures r.note == Note(name, NotePath(nb, name), "")
    ensures r.notebook == nb.(allNotes := nb.allNotes + [r.note])
    ensures r.fs.dirs == fs.dirs && r.fs.unreadable == fs.unreadable && r.fs.unwritable == fs.unwritable
    ensures CanOpenWrite(fs, NotePath(nb, name)) ==> r.fs.files == fs.files[NotePath(nb, name) := ""]
    ensures !CanOpenWrite(fs, NotePath(nb, name)) ==> r.fs == fs
  {
    var path := NotePath(nb, name);
    var created := OpenNewOnly(fs, path);
    var note := Note(name, path, "");
    var saved := Save(note, created.fs);
    NoteCreation(nb.(allNotes := nb.allNotes + [note]), saved.fs, note)
  }

  /** Lookup after `createNewNote(name)`: a name that was already present
      still finds its earlier note, so the new duplicate is never returned;
      a fresh name finds the new note; every other name is unaffected. */
  lemma {:induction false} NoteNamedAfterCreate(nb: Notebook, fs: FileSystem, name: string, key: string)
    ensures var r := CreateNewNote(nb, fs, name);
      NoteNamed(r.notebook, key) ==
        if key in NoteNames(Notes(nb)) then NoteNamed(nb, key)
        else if key == name then Ok(r.note)
        else Err(KeyError(key))
  {
    var r := CreateNewNote(nb, fs, name);
    assert NoteNames(Notes(r.notebook)) == NoteNames(Notes(nb)) + [name];
    FirstIndexAfterAppend(NoteNames(Notes(nb)), name, key);
  }

  /** A concrete run of `createNewNote` over an existing note: the file
      "/nb/a.md" holding "hello" is emptied, and the notebook ends up with
      two notes named "a". */
  lemma CreateNewNoteOverwritesExisting()
    ensures var fs := FileSystem(map["/nb/a.md" := "hello"], {"/nb"}, {}, {});
      var nb := Notebook("nb", "/nb", [Note("a", "/nb/a.md", "hello")]);
      var r := CreateNewNote(nb, fs, "a");
      && r.fs.files["/nb/a.md"] == ""
      && |Notes(r.notebook)| == 2
      && Notes(r.notebook)[0].name == Notes(r.notebook)[1].name == "a"
  {
    var nb := Notebook("nb", "/nb", [Note("a", "/nb/a.md", "hello")]);
    assert NotePath(nb, "a") == Join("/nb", "a.md") == "/nb/a.md";
    SplitJoin("/nb", "a.md");
  }

  /** Why an exclusive create fails. */
  datatype CreateError = AlreadyExists(path: Path) | CannotCreate(path: Path)

  /** `createNewNote` as its exclusive open evidently intends: stop, changing
      nothing, when the file cannot be created, and otherwise do exactly what
      the as-written operation does. */
  function CreateNewNoteExclusive(nb: Notebook, fs: FileSystem, name: string): (r: Result<NoteCreation, CreateError>)
    ensures r.Err? <==> NotePath(nb, name) in fs.files || !CanOpenWrite(fs, NotePath(nb, name))
    ensures NotePath(nb, name) in fs.files ==> r == Err(AlreadyExists(NotePath(nb, name)))
    ensures r.Ok? ==> r.value == CreateNewNote(nb, fs, name)
    ensures r.Ok? ==> forall p :: p in fs.files ==> p in r.value.fs.files && r.value.fs.files[p] == fs.files[p]
  {
    var path := NotePath(nb, name);
    var created := OpenNewOnly(fs, path);
    if !created.ok then
      Err(if path in fs.files then AlreadyExists(path) else CannotCreate(path))
    else
      var note := Note(name, path, "");
      var saved := Save(note, created.fs);
      Ok(NoteCreation(nb.(allNotes := nb.allNotes + [note]), saved.fs, note))
  }

  /** With the exclusive create, creating the same name twice fails the
      second time with `AlreadyExists`, leaving the note list unchanged. */
  lemma ExclusiveCreateTwiceFails(nb: Notebook, fs: FileSystem, name: string)
    requires CreateNewNoteExclusive(nb, fs, name).Ok?
    ensures var first := CreateNewNoteExclusive(nb, fs, name).value;
      && CreateNewNoteExclusive(first.notebook, first.fs, name) == Err(AlreadyExists(NotePath(nb, name)))
      && |Notes(first.notebook)| == |Notes(nb)| + 1
  {
  }

  /** The paths of the notes loaded from `entries` are the joined entries. */
  lemma {:induction false} LoadedPaths(name: string, dir: Path, fs: FileSystem, entries: seq<string>)
    ensures var notes := Notes(OpenNotebook(name, dir, fs, entries));
      (set n | n in notes :: n.backingStoragePath) == (set k | 0 <= k < |entries| :: Join(dir, entries[k]))
  {
    var notes := Notes(OpenNotebook(name, dir, fs, entries));
    var listed := set k | 0 <= k < |entries| :: Join(dir, entries[k]);
    var loaded := set n | n in notes :: n.backingStoragePath;
    forall p | p in listed
      ensures p in loaded
    {
      var k :| 0 <= k < |entries| && p == Join(dir, entries[k]);
      assert notes[k] == NoteFromEntry(fs, dir, entries[k]);
    }
    forall p | p in loaded
      ensures p in listed
    {
      var n :| n in notes && n.backingStoragePath == p;
      var k :| 0 <= k < |notes| && notes[k] == n;
      assert notes[k] == NoteFromEntry(fs, dir, entries[k]);
    }
  }

  /** Distinct entries load into notes with distinct backing paths. */
  lemma {:induction false} LoadedPathsDistinct(name: string, dir: Path, fs: FileSystem, entries: seq<string>)
    requires forall i, j :: 0 <= i < j < |entries| ==> entries[i] != entries[j]
    ensures var notes := Notes(OpenNotebook(name, dir, fs, entries));
      forall i, j :: 0 <= i < j < |notes| ==> notes[i].backingStoragePath != notes[j].backingStoragePath
  {
    var notes := Notes(OpenNotebook(name, dir, fs, entries));
    forall i, j | 0 <= i < j < |notes|
      ensures notes[i].backingStoragePath != notes[j].backingStoragePath
    {
      assert notes[i] == NoteFromEntry(fs, dir, entries[i]);
      assert notes[j] == NoteFromEntry(fs, dir, entries[j]);
      if notes[i].backingStoragePath == notes[j].backingStoragePath {
        JoinInjective(dir, entries[i], entries[j]);
      }
    }
  }

  /** Each note loaded from plain entry names is named by the base name of
      its file and holds what `readMarkdownFile` returns for that file. */
  lemma {:induction false} LoadedNotesDescribeFiles(name: string, dir: Path, fs: FileSystem, entries: seq<string>)
    requires forall k :: 0 <= k < |entries| ==> '/' !in entries[k]
    ensures forall n :: n in Notes(OpenNotebook(name, dir, fs, entries)) ==>
      && n.name == BaseName(Leaf(n.backingStoragePath))
      && n.contents == ReadMarkdownFile(fs, n.backingStoragePath)
  {
    var notes := Notes(OpenNotebook(name, dir, fs, entries));
    forall n | n in notes
      ensures n.name == BaseName(Leaf(n.backingStoragePath))
      ensures n.contents == ReadMarkdownFile(fs, n.backingStoragePath)
    {
      var k :| 0 <= k < |notes| && notes[k] == n;
      assert n == NoteFromEntry(fs, dir, entries[k]);
      SplitJoin(dir, entries[k]);
    }
  }

  /** Loading a directory from a faithful listing yields exactly its note
      files, each once, named by base name and holding what
      `readMarkdownFile` returns for it. */
  lemma {:induction false} LoadedNotesMatchDirectory(name: string, dir: Path, fs: FileSystem, entries: seq<string>)
    requires IsNoteListing(fs, dir, entries)
    ensures var notes := Notes(OpenNotebook(name, dir, fs, entries));
      && (set n | n in notes :: n.backingStoragePath) == NoteFilesIn(fs, dir)
      && |notes| == |NoteFilesIn(fs, dir)|
      && (forall i, j :: 0 <= i < j < |notes| ==> notes[i].backingStoragePath != notes[j].backingStoragePath)
      && (forall n :: n in notes ==>
            && n.name == BaseName(Leaf(n.backingStoragePath))
            && n.contents == ReadMarkdownFile(fs, n.backingStoragePath))
  {
    LoadedPaths(name, dir, fs, entries);
    NoteListingCount(fs, dir, entries);
    LoadedPathsDistinct(name, dir, fs, entries);
    LoadedNotesDescribeFiles(name, dir, fs, entries);
  }

  /** Saving a note that lives in `dir` and then reopening `dir` finds a note
      at the same path, named by the base name of its file, holding the saved
      contents (or "" when the file may be written but not read). */
  lemma {:induction false} SaveThenReload(note: Note, name: string, dir: Path, fs: FileSystem, entries: seq<string>)
    requires Parent(note.backingStoragePath) == Some(dir)
    requires IsNoteFileName(Leaf(note.backingStoragePath))
    requires Save(note, fs).returned.None?
    requires IsNoteListing(Save(note, fs).fs, dir, entries)
    ensures Note(BaseName(Leaf(note.backingStoragePath)), note.backingStoragePath,
                 if note.backingStoragePath in fs.unreadable then "" else note.contents)
      in Notes(OpenNotebook(name, dir, Save(note, fs).fs, entries))
  {
    var saved := Save(note, fs).fs;
    var path := note.backingStoragePath;
    assert path in NoteFilesIn(saved, dir);
    var k :| 0 <= k < |entries| && Join(dir, entries[k]) == path;
    SplitJoin(dir, entries[k]);
    assert entries[k] == Leaf(path);
    SaveThenRead(note, fs, path);
    var notes := Notes(OpenNotebook(name, dir, saved, entries));
    assert notes[k] == NoteFromEntry(saved, dir, entries[k]);
    assert notes[k] in notes;
  }

  /** Saving new text into a freshly created note leaves the filesystem as
      if that text had been written straight to the note's file. */
  lemma CreatedNoteSaves(nb: Notebook, fs: FileSystem, name: string, text: string)
    requires CanOpenWrite(fs, NotePath(nb, name))
    ensures var created := CreateNewNote(nb, fs, name);
      Save(created.note.(contents := text), created.fs) ==
        SaveOutcome(fs.(files := fs.files[NotePath(nb, name) := text]), None)
  {
  }

  /** A name that is not empty, does not start with '.', and holds no '/'
      yields a file the directory listing reports. */
  lemma NoteFileOfName(dir: Path, name: string)
    requires '/' !in name && |name| > 0 && name[0] != '.'
    ensures IsNoteFileName(name + MarkdownSuffix)
    ensures Parent(Join(dir, name + MarkdownSuffix)) == Some(dir)
    ensures Leaf(Join(dir, name + MarkdownSuffix)) == name + MarkdownSuffix
  {
    var file := name + MarkdownSuffix;
    assert file[0] == name[0];
    SplitJoin(dir, file);
  }

  /** The full cycle: create a note, edit it, save it, reopen the notebook.
      The text comes back at the note's path (as "" when the file may not be
      read), but under the original name only when that name holds no '.'. */
  lemma {:induction false} CreateSaveReload(nb: Notebook, fs: FileSystem, name: string, text: string, entries: seq<string>)
    requires '/' !in name && |name| > 0 && name[0] != '.'
    requires CanOpenWrite(fs, NotePath(nb, name))
    requires IsNoteListing(fs.(files := fs.files[NotePath(nb, name) := text]), nb.localStoragePath, entries)
    ensures var created := CreateNewNote(nb, fs, name);
      var saved := Save(created.note.(contents := text), created.fs).fs;
      exists n :: n in Notes(OpenNotebook(nb.name, nb.localStoragePath, saved, entries))
        && n.backingStoragePath == NotePath(nb, name)
        && n.contents == (if NotePath(nb, name) in fs.unreadable then "" else text)
        && (n.name == name <==> '.' !in name)
  {
    var created := CreateNewNote(nb, fs, name);
    var edited := created.note.(contents := text);
    NoteFileOfName(nb.localStoragePath, name);
    BaseNameOfStem(name, MarkdownSuffix);
    CreatedNoteSaves(nb, fs, name, text);
    SaveThenReload(edited, nb.name, nb.localStoragePath, created.fs, entries);
    var n := Note(BaseName(name + MarkdownSuffix), NotePath(nb, name),
                  if NotePath(nb, name) in fs.unreadable then "" else text);
    assert n in Notes(OpenNotebook(nb.name, nb.localStoragePath, Save(edited, created.fs).fs, entries));
  }

  /** A note whose name is empty or starts with '.' is saved to a hidden
      file, which no listing of the directory ever reports again. */
  lemma {:induction false} HiddenNoteNeverListed(nb: Notebook, fs: FileSystem, name: string)
    requires '/' !in name
    requires |name| == 0 || name[0] == '.'
    ensures NotePath(nb, name) !in NoteFilesIn(fs, nb.localStoragePath)
  {
  }
}

=== FILE: paths.dfy ===
/** Path and file-name arithmetic: joining a directory and an entry name,
    splitting a path at its last '/', and the two stem functions of
    `QFileInfo` (`baseName` and `completeBaseName`). */
module Paths {
  import opened Results

  /** A path as the Qt file API receives it: '/'-separated text. Paths are
      taken as already absolute and clean; no normalisation happens. */
  type Path = string

  /** The extension every note file carries. */
  const MarkdownSuffix: string := ".md"

  /** The path of entry `entry` directly inside directory `dir`, spelled the
      way both `absoluteFilePath()` and `createNewNote` spell it. */
  function Join(dir: Path, entry: string): Path
  {
    dir + "/" + entry
  }

  /** The position of the last occurrence of `c` in `s`, if any. */
  function LastIndexOf(s: string, c: char): (r: Option<nat>)
    ensures r.Some? ==> r.value < |s| && s[r.value] == c
    ensures r.Some? ==> forall j :: r.value < j < |s| ==> s[j] != c
    ensures r.None? <==> c !in s
  {
    if |s| == 0 then None
    else if s[|s| - 1] == c then Some(|s| - 1)
    else
      assert s == s[..|s| - 1] + [s[|s| - 1]];
      LastIndexOf(s[..|s| - 1], c)
  }

  /** The directory part of a path: everything before its last '/'. */
  function Parent(p: Path): Option<Path>
  {
    match LastIndexOf(p, '/')
    case Some(i) => Some(p[..i])
    case None => None
  }

  /** The entry part of a path: everything after its last '/'. */
  function Leaf(p: Path): string
  {
    match LastIndexOf(p, '/')
    case Some(i) => p[i + 1..]
    case None => p
  }

  /** Splitting a joined path gives back its directory and its entry, as long
      as the entry holds no '/'. */
  lemma {:induction false} SplitJoin(dir: Path, entry: string)
    requires '/' !in entry
    ensures Parent(Join(dir, entry)) == Some(dir)
    ensures Leaf(Join(dir, entry)) == entry
  {
    var p := Join(dir, entry);
    assert p[|dir|] == '/';
    var r := LastIndexOf(p, '/');
    forall k | |dir| < k < |p|
      ensures p[k] != '/'
    {
      assert p[k] == entry[k - |dir| - 1];
    }
    assert r == Some(|dir|);
    assert p[..|dir|] == dir;
    assert p[|dir| + 1..] == entry;
  }

  /** Joining is injective in the entry name. */
  lemma JoinInjective(dir: Path, a: string, b: string)
    requires Join(dir, a) == Join(dir, b)
    ensures a == b
  {
    assert a == Join(dir, a)[|dir| + 1..];
    assert b == Join(dir, b)[|dir| + 1..];
  }

  /** Every directory `mkpath` must have in place for `p` to exist: each
      prefix that ends just before a '/' (the root excluded), and `p`
      itself. */
  function DirChain(p: Path): (r: set<Path>)
    ensures |p| > 0 ==> p in r
    ensures forall q :: q in r ==> q <= p && |q| > 0
  {
    assert p[..|p|] == p;
    set i | 0 < i <= |p| && (i == |p| || p[i] == '/') :: p[..i]
  }

  /** Hidden on Unix: the name starts with a dot. */
  predicate IsHidden(name: string)
  {
    |name| > 0 && name[0] == '.'
  }

  /** Whether a name matches the pattern `*.md`. The pattern is matched
      without regard to case, because the listing does not pass
      `QDir::CaseSensitive`. */
  predicate HasMarkdownSuffix(name: string)
  {
    && |name| >= 3
    && name[|name| - 3] == '.'
    && (name[|name| - 2] == 'm' || name[|name| - 2] == 'M')
    && (name[|name| - 1] == 'd' || name[|name| - 1] == 'D')
  }

  /** The entries a notebook directory listing reports: plain names that
      match `*.md` and are not hidden. */
  predicate IsNoteFileName(name: string)
  {
    '/' !in name && !IsHidden(name) && HasMarkdownSuffix(name)
  }

  /** `QFileInfo::baseName`: the file name up to, not including, its FIRST
      '.'; the whole name when there is none. */
  function BaseName(fileName: string): (r: string)
    ensures r <= fileName
    ensures '.' !in r
    ensures |r| < |fileName| ==> fileName[|r|] == '.'
  {
    if |fileName| == 0 || fileName[0] == '.' then ""
    else [fileName[0]] + BaseName(fileName[1..])
  }

  /** The three properties `BaseName` ensures pin its result down. */
  lemma {:induction false} BaseNameUnique(fileName: string, stem: string)
    requires stem <= fileName
    requires '.' !in stem
    requires |stem| < |fileName| ==> fileName[|stem|] == '.'
    ensures BaseName(fileName) == stem
  {
  }

  /** A name followed by an extension starting with '.' has that name as its
      base name exactly when the name holds no '.' itself. */
  lemma {:induction false} BaseNameOfStem(stem: string, ext: string)
    requires |ext| > 0 && ext[0] == '.'
    ensures BaseName(stem + ext) == stem <==> '.' !in stem
  {
    if '.' !in stem {
      assert (stem + ext)[|stem|] == '.';
      assert stem <= stem + ext;
      BaseNameUnique(stem + ext, stem);
    }
  }

  /** A concrete case: the note name "v1.2" comes back as "v1". */
  lemma BaseNameDropsAfterFirstDot()
    ensures BaseName("v1.2" + MarkdownSuffix) == "v1"
  {
    var f := "v1.2" + MarkdownSuffix;
    assert f[..2] == "v1" && f[2] == '.';
    BaseNameUnique(f, "v1");
  }

  /** `QFileInfo::completeBaseName`: the file name up to, not including, its
      LAST '.'; the whole name when there is none. */
  function CompleteBaseName(fileName: string): (r: string)
    ensures r <= fileName
  {
    match LastIndexOf(fileName, '.')
    case Some(i) => fileName[..i]
    case None => fileName
  }

  /** Stripping only the last extension gives back any stem, dots and all. */
  lemma {:induction false} CompleteBaseNameRoundTrip(stem: string, ext: string)
    requires '.' !in ext
    ensures CompleteBaseName(stem + "." + ext) == stem
  {
    var f := stem + "." + ext;
    assert f[|stem|] == '.';
    var r := LastIndexOf(f, '.');
    forall k | |stem| < k < |f|
      ensures f[k] != '.'
    {
      assert f[k] == ext[k - |stem| - 1];
    }
    assert r == Some(|stem|);
    assert f[..|stem|] == stem;
  }
}

=== FILE: results.dfy ===
/** Failure-carrying values used in place of the source's `None` returns and
    raised `KeyError`s. */
module Results {

  /** A value that may be absent. */
  datatype Option<+T> = None | Some(value: T)

  /** Either a value or the error a Python caller would see raised. */
  datatype Result<+T, +E> = Ok(value: T) | Err(error: E)
}
